=== FILE: README.md ===
# Seat selection for a movie-theater seat map, in Dafny

This project models the logic of a browser page that draws a theater's seat grid. On that page a user picks up to N seats and sees a running price total. The model is written as pure functions over immutable values:

- **Cells**: decodes one layout cell. A cell is either the spacer marker `&` or a string `"<id>:<price>"`. The page splits the string on `:` and keeps the first two fields.
- **Numbers**: the part of JavaScript number handling the page relies on. `parseInt` is modelled on a digits-only basis. `+` is modelled with NaN absorbing everything it is added to.
- **Display**: the classification precedence taken > in progress > selected > available. Also decides which seats are bookable, meaning they get a click handler. That is the JavaScript truth test on the status lookup, so an id naming a member every object inherits (`toString`, `constructor`, …) counts as having a status.
- **Selection**: the state machine `(selected, maxSeats)`.
  - A click toggles a seat. It either removes the seat, appends it while there is room, or does nothing.
  - Changing the seat count replaces the cap and clears the selection.
  - The page starts with an empty selection and a cap of 1.
- **Prices**: the total, a left-to-right sum of the selected seats' prices starting at 0.
- **Grid**:
  - Renders the layout into seat elements in document order.
  - Re-highlights the elements after a change. Taken and in-progress elements are never touched.
  - Builds the price table the total reads. For each id it takes the first element with that id, as `querySelector` does.
- **Theater**: the whole page.
  - Holds the elements, the selection and the total on display.
  - Handles the two user inputs: a seat click and a seat-count change.
  - Defines an invariant that every page reachable from load keeps. The part about the seats holds for the page as written; the part about the displayed total holds with the corrected count handler.
- **Legend**: the legend's colour swatches, which the re-highlight reaches because they share the seat buttons' `seat` class.
- **Scenarios**: concrete runs on the row `A1:150, A2:150, &, A3:200`.

The show descriptor (layout and status map) is an input of the model. The descriptor fetch itself is not modelled.

## Model

| member | source | states |
|---|---|---|
| Cells.Decode | main.js:47-54 | `&` and only `&` is a spacer. Any other cell is a seat. Its id is the text before the first `:`. Its price is the field between the first and second `:`, present exactly when the cell contains a `:` |
| Cells.DecodeEncode | main.js:54 | a seat written as `id:price`, with no `:` in either part, decodes back to that id and price |
| Cells.DecodeExtraFields | main.js:54 | fields after the second one are ignored: `id:price:…` decodes to the same seat as `id:price` |
| Numbers.ParseInt | main.js:134 | the digits-only `parseInt` gives NaN exactly when the text does not start with a decimal digit |
| Numbers.ParseIntDecimal | main.js:134 | `parseInt` reads back the decimal numeral of any natural number, whatever non-digit text follows it |
| Numbers.Add | main.js:134 | the sum is NaN exactly when an operand is NaN; otherwise the operands' values add up |
| Display.Classify | main.js:100-105 | each class as an if-and-only-if: taken for a "taken" status, progress for a "progress" status, selected for an id in the selection with neither status, available otherwise |
| Display.StatusOutranksSelection | main.js:100-103 | a taken or in-progress seat has the same class (taken or progress) whatever the selection holds |
| Display.BookableFollowsSelection | main.js:100-105 | a seat with no status entry is drawn selected exactly when its id is in the selection, and available otherwise |
| Display.Bookable | main.js:61-62 | a seat that gets a click handler is never one the status map marks taken or in progress |
| Display.InheritedIsMembership | main.js:61 | the length test in `Display.Inherited` is only a shortcut: an id is treated as inherited exactly when it is one of the twelve `Object.prototype` member names |
| Display.InheritedNameIsUnclickableButAvailable | main.js:61-62 | an id naming an inherited `Object.prototype` member, with no status entry of its own, gets no click handler, yet is drawn as the selection alone decides |
| Display.UnknownStatusIsUnclickableButAvailable | main.js:61 | a status other than "", "taken" and "progress" blocks clicks but still draws the seat as available |
| Selection.IndexOf | main.js:108 | the result is -1 exactly when the id is absent; otherwise it is the position of the first occurrence |
| Selection.RemoveAt | main.js:114 | `splice(i, 1)` keeps the entries before `i` and shifts the entries after it down by one |
| Selection.Init | main.js:38 | the initial state is valid, has an empty selection, and has cap 1 |
| Selection.Toggle | main.js:107-115 | the cap never changes. An unselected seat is appended at the end when there is room, and is a silent no-op otherwise. A selected seat is removed at its first occurrence and the others keep their order. No other id changes membership |
| Selection.Reset | main.js:33-35 | a count change gives cap `n` and an empty selection (a reset, not a truncation), which is valid |
| Selection.ToggleKeepsValid | main.js:107-115 | toggling keeps the selection duplicate-free and within the cap. In a valid state the seat ends up selected exactly when it was unselected and there was room |
| Selection.RemovalIgnoresCap | main.js:108-114 | removing a selected seat gives the same selection whatever the cap is |
| Selection.ToggleRoundTrip | main.js:108-114 | selecting an unselected seat with room and then toggling it again restores the state |
| Selection.ToggleTwiceMovesToEnd | main.js:108-114 | toggling a selected seat twice moves it to the end of the selection |
| Selection.RunKeepsValid | main.js:107-115 | no sequence of toggles and count changes breaks validity |
| Selection.ReachableWithinCap | main.js:33-38 | every state reachable from the initial one has at most `maxSeats` entries and no duplicates |
| Prices.Total | main.js:132-135 | the total is 0 for an empty selection, and NaN exactly when some selected seat's price is NaN |
| Prices.TotalRemoveAt | main.js:132-135 | removing the seat at any position takes exactly its price off the total |
| Prices.TotalRoundTrip | main.js:107-117 | toggling an unselected seat on and off again, with room, returns the total to its earlier value |
| Grid.PriceText | main.js:59 | a present price is stored as it is; an undefined price is stored as text that parses to NaN |
| Grid.SeatElement | main.js:54-63 | a seat cell's element carries the cell's id. A seat given a click handler starts out available, and a taken or in-progress seat never gets one |
| Grid.Flatten | main.js:42-46 | every cell of every row is visited, and nothing else |
| Grid.FlattenAppend | main.js:42-46 | rows are visited in order: flattening two blocks of rows gives the first block's cells, in order, followed by the second's |
| Grid.RenderCellsAppend | main.js:42-74 | rendering is compositional: cells rendered one after another give the concatenation of their elements |
| Grid.RenderCellsMatchesCells | main.js:46-71 | every seat cell's element is rendered, and every rendered element comes from some cell |
| Grid.Render | main.js:42-74 | every element of the rendered layout has the class for an empty selection and has a click handler exactly when its seat is bookable |
| Grid.RenderIsDrawnFrom | main.js:54-63 | after the first render every element has the class for an empty selection, and has a click handler exactly when its seat is bookable |
| Grid.Rehighlight | main.js:121-127 | a taken or in-progress element is unchanged. Any other element gets class `Selected` (it carries `seat-selected`) exactly when its id is selected, and class `Available` otherwise. Id, price and handler never change |
| Grid.Refresh | main.js:120-129 | every seat element is re-highlighted in place by the rule of `Grid.Rehighlight`; none is added, dropped or reordered |
| Grid.RefreshAgreesWithClassify | main.js:120-129 | if every element was drawn as classification says for one selection, re-highlighting draws it as classification says for the new selection |
| Grid.RefreshKeepsUnavailable | main.js:122 | re-highlighting never alters a taken or in-progress element |
| Grid.PriceTable | main.js:133 | the first element on the page supplies the entry for its id, whatever later elements carry the same id |
| Grid.PriceTableDomain | main.js:133 | the price table has an entry exactly for the ids that some element carries |
| Grid.PriceTableFirst | main.js:133 | an id's entry is the parsed price of the first element with that id, the one `querySelector` returns |
| Grid.TotalOf | main.js:131-135 | the displayed total is NaN exactly when some selected id's looked-up price is NaN |
| Theater.Load | main.js:38-74 | after load the selection is the initial one, no total is displayed yet, and the elements are drawn from the status map |
| Theater.Click | main.js:62 | a click on an element without a handler changes nothing. On one with a handler, the new state is that seat's toggle and the displayed total is recomputed. Seats, prices and handlers stay put, and the selection stays on the page |
| Theater.ClickedTotal | main.js:131-135 | the total a click displays is the sum over the new selection, with prices read from the page as it was before the click |
| Theater.ChangeCountAsWritten | main.js:33-37 | the count change resets the selection but leaves the displayed total untouched |
| Theater.ChangeCount | main.js:33-37 | the corrected count change resets the selection and displays the total of the empty selection |
| Theater.LoadEstablishesInv | main.js:38-63 | the freshly loaded page satisfies the page invariant |
| Theater.ClickKeepsSeatsInv | main.js:107-129 | a click keeps the selection valid and made of clickable seats, and keeps every element drawn by classification with handlers only on bookable seats |
| Theater.ClickMakesShownCurrent | main.js:107-135 | after a click on a seat with a handler the displayed total is the current selection's, whatever was displayed before |
| Theater.ClickKeepsInv | main.js:107-118 | a click preserves the invariant: a valid selection of bookable seats, every element drawn by classification, handlers only on bookable seats, and the displayed total current |
| Theater.ChangeCountKeepsSeatsInv | main.js:33-37 | both count handlers, as written and corrected, keep the seat part of the invariant |
| Theater.ChangeCountKeepsInv | main.js:33-37 | the corrected count change preserves the invariant |
| Theater.ChangeCountAsWrittenGoesStale | main.js:33-37 | whenever a non-zero total is on display, the handler as written leaves the page showing a total that is not the selection's, and the corrected one does not |
| Theater.Step | main.js:33-62 | one user input with the corrected count handler keeps every selected id on the page, and leaves the seats' ids, prices and handlers as they were |
| Theater.Run | main.js:33-62 | a sequence of inputs with the corrected count handler keeps the selection on the page and the seats' ids, prices and handlers unchanged |
| Theater.StepAsWritten | main.js:33-62 | one user input as the page is written keeps every selected id on the page, and leaves the seats' ids, prices and handlers as they were |
| Theater.RunAsWritten | main.js:33-62 | a sequence of inputs as the page is written keeps the selection on the page and the seats' ids, prices and handlers unchanged |
| Theater.StepKeepsInv | main.js:33-37 | with the corrected count handler, either user input preserves the invariant |
| Theater.RunKeepsInv | main.js:107-118 | with the corrected count handler, any sequence of clicks and count changes preserves the invariant |
| Theater.ReachableInv | main.js:33-118 | with the corrected count handler, every page reachable from load satisfies the invariant |
| Theater.RunAsWrittenKeepsSeatsInv | main.js:33-129 | on the page as written, any sequence of clicks and count changes keeps the seat part of the invariant; only the displayed total can go stale |
| Theater.ReachableAsWritten | main.js:33-129 | on the page as written, every page reachable from load keeps the selection valid and made of bookable seats, every seat drawn by classification, and handlers only on bookable seats |
| Theater.UnbookableClickIgnored | main.js:61-63 | on any page whose seats are consistent with the status map, including one as written showing a stale total, clicking a seat that is not bookable leaves the page unchanged |
| Theater.ClickTwiceRestoresTotal | main.js:107-135 | on any page whose seats are consistent with the status map, including one as written showing a stale total, clicking a free seat on and off again, with room, restores the selection and displays the total of the selection it had before. On a freshly loaded page, where no total was shown yet, that is a displayed 0 |
| Theater.PriceTableDependsOnIdsAndPrices | main.js:133 | the price lookup depends only on the elements' ids and prices, not on their drawn classes |
| Legend.RehighlightNode | main.js:121-127 | a seat button is re-highlighted as `Grid.Rehighlight` says. A swatch stays a swatch and never keeps the selected colour; one without that colour is unchanged |
| Legend.RefreshAsWritten | main.js:120-129 | the re-highlight as written visits every `seat`-class element, legend swatches included, in place |
| Legend.RefreshAsWrittenBlanksSelectedSwatch | main.js:120-129 | after any re-highlight on the page as written the legend's "Selected" swatch has lost its colour, and no element shows the selected swatch colour |
| Legend.RefreshSeatsOnly | main.js:120-129 | the corrected re-highlight re-highlights each seat button and leaves every swatch as drawn |
| Legend.RefreshSeatsOnlyMatchesGrid | main.js:120-129 | the corrected re-highlight does to the seat buttons exactly what `Grid.Refresh` does and leaves the legend untouched |
| Legend.RefreshesAgreeOnSeats | main.js:120-129 | the two re-highlights agree on every seat button and differ on the legend |
| Scenarios.LoadRow | main.js:33-74 | loading the row and choosing `n` seats with the count handler as written gives three clickable, available seats (A1 at "150", A2 at "150", A3 at "200"), an empty selection and cap `n` |
| Scenarios.CapAndTotalRun | main.js:107-135 | for any three distinct clickable seats x, y, z with cap 2, clicks select x, then add z, then refuse y, then remove x. The displayed totals are px, px+pz, px+pz, then pz |
| Scenarios.CapAndTotalScenario | main.js:107-135 | on the loaded row with cap 2, clicking A1 shows 150, then A3 shows 350. A2 is refused (350 stays). Clicking A1 again leaves `[A3]` and shows 200 |
| Scenarios.TakenSeatScenario | main.js:61-63 | with A2 taken, A2 is drawn taken, has no handler, and a click on it changes nothing |
| Scenarios.StaleTotalAfterCountChange | main.js:33-37 | the handler as written, on the loaded row: select A1 (total 150), then switch to one seat. The selection is empty but 150 is still displayed |
| Scenarios.CorrectedTotalAfterCountChange | main.js:33-37 | the corrected handler displays 0 for the same run |

## Left out

- The fetch of `/seats.json` and JSON parsing (main.js:9-10) are network I/O. The layout and status map are inputs of the model.
- The header and the seat-count selector markup (main.js:13-30) are presentation only. The seat's button label (main.js:57) is also not modelled. It is assigned through `innerHTML`, so an id that contains markup is parsed as HTML, not shown as text. Elements injected that way are not modelled (see the `Grid.PriceTableFirst` line). The same holds for markup in the header's movie fields (main.js:14-30).
- The legend's markup (main.js:76-97) is modelled only as four swatches, each with the colour class it still carries. That is the part the re-highlight reaches (see Findings).
- The `tippy` tooltips (main.js:65-68) are a foreign library call.
- DOM mechanics are reduced to a sequence of seat elements in document order: element creation, `classList` and `querySelectorAll`. Each element carries its id, its price text, one display class and whether it has a click handler.
- Numbers.ParseInt: digits-only, giving the value of the leading digit run, or NaN when there is none. Leading whitespace, a sign and the `0x` prefix are not modelled: JavaScript reads `" 150"` as 150, `"-5"` as -5 and `"0x1A"` as 26, while the model gives NaN, NaN and 0. Layout prices are plain digit runs, where the two agree.
- The seat count is taken as an already-parsed natural number. The selector only offers the numerals 1 to 6, and `Numbers.ParseIntDecimal` covers how those read back.
- Status values are modelled as strings only. A status that is not a string (a number, `null`, a boolean) is not modelled, nor is its JavaScript truthiness. An id without an entry of its own is looked up through `Object.prototype`: `Display.Bookable` covers its twelve standard member names.
- The toggle's unused `price` argument (main.js:107) is dropped.
- Selection.ToggleKeepsValid: requires a valid state, and so a selection without duplicate entries. `Selection.Toggle` itself takes any state, and `Selection.ReachableWithinCap` shows every reachable state is valid. The selection only contains ids of elements that have a click handler. That rules out a taken or in-progress seat ever being selected, so the case of a status changing after a seat was selected cannot arise: the status map is fixed for the session.
- `Theater.Click` and `Grid.TotalOf` require every selected id to have a seat element. The code would throw on a missing element (main.js:133-134). The page invariant shows that no reachable page has one, provided the ids contain nothing the selector misreads (next line).
- Grid.PriceTableFirst: assumes ids contain no `"`, no `\`, no line break, no `<` and no U+0000, and that the header's movie fields inject no elements. main.js:133 pastes the id unescaped into a CSS attribute selector and returns the first match in the whole document.
  - With a `"` the selector is usually malformed and `querySelector` throws, so the old total stays on display. A crafted id such as `x"],[data-seat-id="A1` instead forms a well-formed selector list, which finds A1's button (another seat's price is read) or, when neither id is on the page, nothing (reading `dataset` of null throws).
  - A `\` is read as a CSS escape, so another element, or none, is found.
  - A U+0000 becomes U+FFFD when the selector is read, so nothing matches, and reading `dataset` of null throws.
  - An id containing markup is parsed as HTML by the label (main.js:57). An injected child carrying `data-seat-id` can come before the real seat in document order and be found instead. Its `dataset.price` is undefined, so the total shows NaN. Markup in the header (main.js:14-30) can do the same.

  The model looks each id up exactly, among the seat buttons only.
- Theater.Click: rests on the same assumptions about ids and the header. For an id with `"`, `\`, `<` or U+0000 in the selection, the source throws (leaving the old total) or reads a different element's price, where the model shows the sum of the seats' own prices.
- Grid.Rehighlight: the model's `Selected` class means the element carries `seat-selected`. The source never removes the `seat-available` class set at first render (main.js:56, 123-125), so a selected seat carries both classes, and which colour shows is decided by the style sheet, which is not part of this model. The same reading applies to `Theater.DrawnAs` and the rows that state it.
- Numbers.Add: amounts are unbounded naturals. JavaScript numbers are doubles, exact only below 2^53, so prices and totals are assumed to stay below 2^53. Rounding above it is not modelled.
- Numbers.ParseIntDecimal: the read-back is exact for every n. JavaScript's `parseInt` rounds numerals above 2^53 and gives Infinity for numerals of 309 digits or more, so it is faithful only below 2^53.
- Theater.Step: uses the corrected seat-count handler (see Findings). The page as written is `Theater.StepAsWritten` and `Theater.RunAsWritten`, for which the invariant minus the displayed total is proved.
- The page model holds the seat buttons only. The legend is modelled apart in `Legend`, and `Grid.Refresh` is the corrected re-highlight restricted to the seats (see Findings).

## Findings

| source | as written | input that shows it | evidently intended | confidence | as-written member | corrected member |
|---|---|---|---|---|---|---|
| main.js:33-37 | the seat-count change handler clears the selection and re-highlights the grid, but does not call `updateTotalPrice` | select A1 (price 150), then change the seat count to 1: the selection is empty but "Total: ₹150" stays on display | the displayed total is recomputed after a count change, so an empty selection shows 0 | medium, not executed | Scenarios.StaleTotalAfterCountChange | Theater.ChangeCount |
| main.js:120-129 | `querySelectorAll('.seat')` also matches the legend swatches (main.js:81-93). The "Selected" swatch has no `data-seat-id`, and `includes(undefined)` is false, so its `seat-selected` class is removed | load the page and click any free seat (or change the seat count): the legend's "Selected" swatch loses its colour for good | the re-highlight visits only the seat buttons; the legend keeps its four colours | medium, not executed | Legend.RefreshAsWrittenBlanksSelectedSwatch | Legend.RefreshSeatsOnlyMatchesGrid |

=== FILE: cells.dfy ===
/**
 * Decoding of one seat-layout cell. A cell is either the spacer marker "&"
 * or a string "<id>:<price>". The page splits a seat cell on ':' and keeps
 * the first two fields: the id and the price text. A cell without a ':' has
 * no second field, so its price is undefined.
 */
module Cells {
  import opened Wrappers

  const Separator: char := ':'
  const SpacerMark: string := "&"

  datatype Cell = Spacer | Seat(id: string, price: Option<string>)

  /** `f` is the field of `s` that starts at `start`: a separator-free run
      that ends at the end of `s` or just before a separator. */
  ghost predicate FieldAt(s: string, start: nat, f: string) {
    && start + |f| <= |s|
    && s[start..start + |f|] == f
    && Separator !in f
    && (start + |f| == |s| || s[start + |f|] == Separator)
  }

  /** Position of the first separator in `s`, or `|s|` when there is none. */
  function SeparatorIndex(s: string): (i: nat)
    ensures i <= |s|
    ensures Separator !in s[..i]
    ensures i < |s| ==> s[i] == Separator
    decreases |s|
  {
    if |s| == 0 || s[0] == Separator then 0
    else
      var j := SeparatorIndex(s[1..]);
      assert s[..j + 1] == [s[0]] + s[1..][..j];
      j + 1
  }

  /** The leading field of `s`. */
  function LeadingField(s: string): (f: string)
    ensures FieldAt(s, 0, f)
  {
    s[..SeparatorIndex(s)]
  }

  /** A field is determined by the text and its start position. */
  lemma FieldAtUnique(s: string, start: nat, f: string, g: string)
    requires FieldAt(s, start, f) && FieldAt(s, start, g)
    ensures f == g
  {
  }

  /** Decodes one layout cell the way the rendering loop does. */
  function Decode(s: string): (c: Cell)
    ensures c.Spacer? <==> s == SpacerMark
    ensures c.Seat? ==> FieldAt(s, 0, c.id)
    ensures c.Seat? ==> (c.price.Some? <==> Separator in s)
    ensures c.Seat? && c.price.Some? ==> FieldAt(s, |c.id| + 1, c.price.value)
  {
    if s == SpacerMark then Spacer
    else
      var id := LeadingField(s);
      if |id| == |s| then
        assert s[..|id|] == s;
        Seat(id, None)
      else
        var price := LeadingField(s[|id| + 1..]);
        assert s[|id| + 1..][..|price|] == s[|id| + 1..|id| + 1 + |price|];
        assert Separator in s by { assert s[|id|] == Separator; }
        Seat(id, Some(price))
  }

  /** The cell text for a seat, as the layout writes it. */
  function Encode(id: string, price: string): (s: string)
    ensures Separator in s
  {
    assert (id + [Separator] + price)[|id|] == Separator;
    id + [Separator] + price
  }

  /** Decoding an encoded seat gives back its id and price. */
  lemma DecodeEncode(id: string, price: string)
    requires Separator !in id && Separator !in price
    ensures Decode(Encode(id, price)) == Seat(id, Some(price))
  {
    assert Encode(id, price) + [] == Encode(id, price);
    DecodeExtraFields(id, price, []);
  }

  /** Fields after the second are ignored: "A1:150:x" decodes like "A1:150". */
  lemma DecodeExtraFields(id: string, price: string, rest: string)
    requires Separator !in id && Separator !in price
    requires |rest| == 0 || rest[0] == Separator
    ensures Decode(Encode(id, price) + rest) == Seat(id, Some(price))
  {
    var s := Encode(id, price) + rest;
    assert s[..|id|] == id;
    assert s[|id|] == Separator;
    assert s != SpacerMark by { assert Separator in s; }
    var c := Decode(s);
    FieldAtUnique(s, 0, c.id, id);
    assert s[|id| + 1..|id| + 1 + |price|] == price;
    assert FieldAt(s, |id| + 1, price) by {
      if |rest| > 0 {
        assert s[|id| + 1 + |price|] == rest[0];
      }
    }
    FieldAtUnique(s, |id| + 1, c.price.value, price);
  }
}

=== FILE: display.dfy ===
/**
 * Display state of a seat. The show's status map gives some seat ids the
 * status "taken" or "progress"; a status entry always outranks the user's
 * selection: taken > progress > selected > available.
 */
module Display {

  datatype SeatClass = Available | Selected | Taken | Progress

  /** Status text per seat id, as the show descriptor carries it. */
  type StatusMap = map<string, string>

  const TakenStatus: string := "taken"
  const ProgressStatus: string := "progress"

  predicate HasStatus(status: StatusMap, id: string, value: string) {
    id in status && status[id] == value
  }

  /** The names every object parsed from JSON inherits from `Object.prototype`.
      Looking one of them up in the status object, when the object has no
      entry of its own under that name, finds an inherited function (or, for
      `__proto__`, the prototype object): a value JavaScript treats as true. */
  const InheritedNames: set<string> := {
    "constructor", "hasOwnProperty", "isPrototypeOf", "propertyIsEnumerable",
    "toLocaleString", "toString", "valueOf", "__proto__",
    "__defineGetter__", "__defineSetter__", "__lookupGetter__", "__lookupSetter__"}

  /** A seat accepts clicks only when looking its id up in the status object
      gives a value JavaScript treats as false: no entry at all, or the empty
      string. An id naming an inherited member finds that member instead. */
  predicate Bookable(status: StatusMap, id: string): (b: bool)
    ensures b ==> !HasStatus(status, id, TakenStatus) && !HasStatus(status, id, ProgressStatus)
  {
    if id in status then status[id] == "" else !Inherited(id)
  }

  /** `id` names an inherited member. Every such name is at least seven
      characters long, so the length test changes nothing (see
      `InheritedIsMembership`); it lets a short id be ruled out without
      comparing it against each name. */
  predicate Inherited(id: string) {
    |id| >= 7 && id in InheritedNames
  }

  lemma InheritedIsMembership(id: string)
    ensures Inherited(id) <==> id in InheritedNames
  {
    if id in InheritedNames {
      assert |id| >= 7;
    }
  }

  /** The class a seat is drawn with. */
  function Classify(id: string, status: StatusMap, selected: seq<string>): (c: SeatClass)
    ensures c == Taken <==> HasStatus(status, id, TakenStatus)
    ensures c == Progress <==> HasStatus(status, id, ProgressStatus)
    ensures c == Selected <==>
      !HasStatus(status, id, TakenStatus) && !HasStatus(status, id, ProgressStatus) && id in selected
    ensures c == Available <==>
      !HasStatus(status, id, TakenStatus) && !HasStatus(status, id, ProgressStatus) && id !in selected
  {
    if HasStatus(status, id, TakenStatus) then Taken
    else if HasStatus(status, id, ProgressStatus) then Progress
    else if id in selected then Selected
    else Available
  }

  /** A taken or in-progress seat keeps its class whatever is selected. */
  lemma StatusOutranksSelection(id: string, status: StatusMap, s1: seq<string>, s2: seq<string>)
    requires HasStatus(status, id, TakenStatus) || HasStatus(status, id, ProgressStatus)
    ensures Classify(id, status, s1) == Classify(id, status, s2)
    ensures Classify(id, status, s1) in {Taken, Progress}
  {
  }

  /** A bookable seat is drawn selected exactly when it is in the selection. */
  lemma BookableFollowsSelection(id: string, status: StatusMap, selected: seq<string>)
    requires Bookable(status, id)
    ensures Classify(id, status, selected) == (if id in selected then Selected else Available)
  {
  }

  /** An id naming an inherited member, with no status entry of its own,
      gets no click handler yet is drawn available: the inherited value is
      neither "taken" nor "progress". */
  lemma InheritedNameIsUnclickableButAvailable(id: string, status: StatusMap, selected: seq<string>)
    requires id !in status && Inherited(id)
    ensures !Bookable(status, id)
    ensures Classify(id, status, selected) == (if id in selected then Selected else Available)
  {
  }

  /** A status other than "", "taken" and "progress" blocks clicks yet draws
      the seat as available. */
  lemma UnknownStatusIsUnclickableButAvailable(id: string, status: StatusMap)
    requires id in status && status[id] !in {"", TakenStatus, ProgressStatus}
    ensures !Bookable(status, id)
    ensures Classify(id, status, []) == Available
  {
  }
}

=== FILE: grid.dfy ===
/**
 * The rendered seat grid: one seat element per non-spacer layout cell, in
 * document order, each carrying its id and price text, a display class and
 * whether a click handler was attached. Re-highlighting after a change and
 * the price lookup for the total both work on these elements.
 */
module Grid {
  import opened Wrappers
  import opened Numbers
  import Cells
  import opened Display
  import Prices

  datatype Element = Element(id: string, price: string, cls: SeatClass, clickable: bool)

  /** Storing an undefined price in a data attribute stores the text "undefined". */
  function PriceText(p: Option<string>): (t: string)
    ensures p.Some? ==> t == p.value
    ensures p.None? ==> ParseInt(t).NaN?
  {
    match p
    case Some(text) => text
    case None => "undefined"
  }

  /** The element drawn for one seat cell at first render, when nothing is selected. */
  function SeatElement(c: Cells.Cell, status: StatusMap): (e: Element)
    requires c.Seat?
    ensures e.id == c.id
    ensures e.clickable ==> e.cls == Available
    ensures e.cls in {Taken, Progress} ==> !e.clickable
  {
    Element(c.id, PriceText(c.price), Classify(c.id, status, []), Bookable(status, c.id))
  }

  /** The cells of the layout, row after row. */
  function Flatten(layout: seq<seq<string>>): (cells: seq<string>)
    ensures forall r, j :: 0 <= r < |layout| && 0 <= j < |layout[r]| ==> layout[r][j] in cells
    ensures forall c :: c in cells ==> exists r :: 0 <= r < |layout| && c in layout[r]
    decreases |layout|
  {
    if |layout| == 0 then [] else layout[0] + Flatten(layout[1..])
  }

  /** Elements as the first render draws them against `status`. */
  predicate DrawnFrom(els: seq<Element>, status: StatusMap) {
    forall k :: 0 <= k < |els| ==>
      els[k].cls == Classify(els[k].id, status, []) && (els[k].clickable <==> Bookable(status, els[k].id))
  }

  /** The elements one cell renders to: none for a spacer, one for a seat. */
  function CellElements(c: string, status: StatusMap): seq<Element> {
    var cell := Cells.Decode(c);
    if cell.Spacer? then [] else [SeatElement(cell, status)]
  }

  /** Flattening keeps rows in order: the cells of `a`'s rows come first,
      in order, then those of `b`'s. */
  lemma {:induction false} FlattenAppend(a: seq<seq<string>>, b: seq<seq<string>>)
    ensures Flatten(a + b) == Flatten(a) + Flatten(b)
    decreases |a|
  {
    if |a| == 0 {
      assert a + b == b;
    } else {
      assert (a + b)[0] == a[0];
      assert (a + b)[1..] == a[1..] + b;
      FlattenAppend(a[1..], b);
    }
  }

  lemma FlattenOneRow(row: seq<string>)
    ensures Flatten([row]) == row
  {
    assert [row][1..] == [];
    assert row + [] == row;
  }

  /** Renders cells in document order. */
  function RenderCells(cells: seq<string>, status: StatusMap): seq<Element>
    decreases |cells|
  {
    if |cells| == 0 then [] else CellElements(cells[0], status) + RenderCells(cells[1..], status)
  }

  /** Every element of a seat cell is rendered, and every rendered element
      comes from a seat cell. */
  lemma {:induction false} RenderCellsMatchesCells(cells: seq<string>, status: StatusMap)
    ensures forall j, e :: 0 <= j < |cells| && e in CellElements(cells[j], status) ==>
      e in RenderCells(cells, status)
    ensures forall e :: e in RenderCells(cells, status) ==>
      exists j :: 0 <= j < |cells| && e in CellElements(cells[j], status)
    decreases |cells|
  {
    if |cells| > 0 {
      RenderCellsMatchesCells(cells[1..], status);
      forall j, e | 0 <= j < |cells| && e in CellElements(cells[j], status)
        ensures e in RenderCells(cells, status)
      {
        if j > 0 {
          assert cells[j] == cells[1..][j - 1];
        }
      }
      forall e | e in RenderCells(cells, status)
        ensures exists j :: 0 <= j < |cells| && e in CellElements(cells[j], status)
      {
        if e !in CellElements(cells[0], status) {
          assert e in RenderCells(cells[1..], status);
          var j :| 0 <= j < |cells[1..]| && e in CellElements(cells[1..][j], status);
          assert cells[j + 1] == cells[1..][j];
        }
      }
    }
  }

  /** Rendering draws every element as the first render does. */
  lemma {:induction false} RenderCellsDrawn(cells: seq<string>, status: StatusMap)
    ensures DrawnFrom(RenderCells(cells, status), status)
    decreases |cells|
  {
    if |cells| > 0 {
      RenderCellsDrawn(cells[1..], status);
      var head := CellElements(cells[0], status);
      var rest := RenderCells(cells[1..], status);
      assert forall k :: |head| <= k < |head + rest| ==> (head + rest)[k] == rest[k - |head|];
    }
  }

  /** Rendering one cell gives that cell's elements. */
  lemma RenderOneCell(c: string, status: StatusMap)
    ensures RenderCells([c], status) == CellElements(c, status)
  {
    assert [c][1..] == [];
  }

  /** Rendering is compositional: cells rendered one after another render to
      the concatenation of their elements. */
  lemma {:induction false} RenderCellsAppend(a: seq<string>, b: seq<string>, status: StatusMap)
    ensures RenderCells(a + b, status) == RenderCells(a, status) + RenderCells(b, status)
    decreases |a|
  {
    if |a| > 0 {
      assert (a + b)[1..] == a[1..] + b;
      RenderCellsAppend(a[1..], b, status);
    } else {
      assert a + b == b;
    }
  }

  /** The seat elements of the whole layout. */
  function Render(layout: seq<seq<string>>, status: StatusMap): (els: seq<Element>)
    ensures DrawnFrom(els, status)
  {
    RenderCellsDrawn(Flatten(layout), status);
    RenderCells(Flatten(layout), status)
  }

  lemma RenderIsDrawnFrom(layout: seq<seq<string>>, status: StatusMap)
    ensures DrawnFrom(Render(layout, status), status)
  {
    RenderCellsDrawn(Flatten(layout), status);
  }

  /** Re-highlighting one element: a taken or in-progress element is left alone,
      any other one is drawn selected exactly when its id is selected. */
  function Rehighlight(e: Element, selected: seq<string>): (r: Element)
    ensures r.id == e.id && r.price == e.price && r.clickable == e.clickable
    ensures e.cls in {Taken, Progress} ==> r == e
    ensures e.cls !in {Taken, Progress} ==> (r.cls == Selected <==> e.id in selected)
    ensures e.cls !in {Taken, Progress} ==> r.cls in {Selected, Available}
  {
    if e.cls == Taken || e.cls == Progress then e
    else e.(cls := if e.id in selected then Selected else Available)
  }

  /** Re-highlighting every seat element after the selection changed. */
  function Refresh(els: seq<Element>, selected: seq<string>): (r: seq<Element>)
    ensures |r| == |els|
    ensures forall k :: 0 <= k < |els| ==> r[k] == Rehighlight(els[k], selected)
  {
    seq(|els|, k requires 0 <= k < |els| => Rehighlight(els[k], selected))
  }

  /** Every element drawn as `Classify` says for one selection is drawn as it
      says for the next selection after re-highlighting. */
  lemma RefreshAgreesWithClassify(els: seq<Element>, status: StatusMap, before: seq<string>, after: seq<string>)
    requires forall k :: 0 <= k < |els| ==> els[k].cls == Classify(els[k].id, status, before)
    ensures forall k :: 0 <= k < |els| ==>
      Refresh(els, after)[k].cls == Classify(els[k].id, status, after)
  {
  }

  /** Re-highlighting never changes a taken or in-progress element. */
  lemma RefreshKeepsUnavailable(els: seq<Element>, selected: seq<string>, k: nat)
    requires k < |els| && els[k].cls in {Taken, Progress}
    ensures Refresh(els, selected)[k] == els[k]
  {
  }

  /** Ids that have a seat element. */
  predicate OnPage(els: seq<Element>, id: string) {
    exists k :: 0 <= k < |els| && els[k].id == id
  }

  /** `k` is the first element carrying its id, the one `querySelector` finds. */
  predicate FirstWithId(els: seq<Element>, k: int) {
    0 <= k < |els| && forall j :: 0 <= j < k ==> els[j].id != els[k].id
  }

  /** Parsed price per id, read from the first element with that id. */
  function PriceTable(els: seq<Element>): (t: Prices.PriceTable)
    ensures |els| > 0 ==> els[0].id in t && t[els[0].id] == ParseInt(els[0].price)
    decreases |els|
  {
    if |els| == 0 then map[]
    else PriceTable(els[1..])[els[0].id := ParseInt(els[0].price)]
  }

  /** The price table has an entry exactly for the ids on the page. */
  lemma {:induction false} PriceTableDomain(els: seq<Element>)
    ensures forall id :: id in PriceTable(els) <==> OnPage(els, id)
    decreases |els|
  {
    if |els| > 0 {
      PriceTableDomain(els[1..]);
      forall id | OnPage(els, id) ensures id in PriceTable(els) {
        var k :| 0 <= k < |els| && els[k].id == id;
        if k > 0 {
          assert els[1..][k - 1].id == id;
        }
      }
      forall id | id in PriceTable(els) ensures OnPage(els, id) {
        if id != els[0].id {
          assert id in PriceTable(els[1..]);
          var k :| 0 <= k < |els[1..]| && els[1..][k].id == id;
          assert els[k + 1].id == id;
        }
      }
    }
  }

  /** An id's entry is the parsed price of the first element carrying it. */
  lemma {:induction false} PriceTableFirst(els: seq<Element>, k: nat)
    requires FirstWithId(els, k)
    ensures els[k].id in PriceTable(els)
    ensures PriceTable(els)[els[k].id] == ParseInt(els[k].price)
    decreases k
  {
    if k > 0 {
      assert FirstWithId(els[1..], k - 1) by {
        forall j | 0 <= j < k - 1 ensures els[1..][j].id != els[1..][k - 1].id {
          assert els[1..][j] == els[j + 1];
        }
      }
      PriceTableFirst(els[1..], k - 1);
      assert els[1..][k - 1] == els[k];
    }
  }

  /** The total shown after a click. */
  function TotalOf(selected: seq<string>, els: seq<Element>): (t: Amount)
    requires forall id :: id in selected ==> OnPage(els, id)
    ensures Prices.Priced(selected, PriceTable(els))
    ensures t.NaN? <==> exists id :: id in selected && PriceTable(els)[id].NaN?
  {
    PriceTableDomain(els);
    Prices.Total(selected, PriceTable(els))
  }
}

=== FILE: legend.dfy ===
/**
 * The legend under the grid draws four colour swatches that carry the same
 * `seat` class as the seat buttons but no seat id. Re-highlighting selects
 * its elements by that class, so it visits the swatches too.
 */
module Legend {
  import opened Wrappers
  import opened Display
  import opened Grid

  /** An element with the `seat` class: a seat button, or a legend swatch
      with the colour class it still has (None once it has lost it). */
  datatype Node = SeatNode(e: Element) | Swatch(colour: Option<SeatClass>)

  /** The swatches as the legend draws them: available, selected, taken,
      in progress. */
  const Swatches: seq<Node> :=
    [Swatch(Some(Available)), Swatch(Some(Selected)), Swatch(Some(Taken)), Swatch(Some(Progress))]

  /** Position of the "Selected" swatch among the swatches. */
  const SelectedSwatch: nat := 1

  /** The `seat`-class elements: the seat buttons and the legend. Where the
      two containers sit relative to each other is decided by the page's
      markup, not by the script; the re-highlight treats each element on its
      own, so this order is immaterial. */
  function Document(els: seq<Element>): (d: seq<Node>)
    ensures |d| == |els| + |Swatches|
    ensures forall k :: 0 <= k < |els| ==> d[k] == SeatNode(els[k])
    ensures forall k :: 0 <= k < |Swatches| ==> d[|els| + k] == Swatches[k]
  {
    seq(|els|, k requires 0 <= k < |els| => SeatNode(els[k])) + Swatches
  }

  /** Re-highlighting one `seat`-class element as the page does. A swatch
      has no seat id, and the missing id is never in the selection: a
      swatch that is neither taken nor in progress loses the selected class
      and gains nothing. */
  function RehighlightNode(n: Node, selected: seq<string>): (r: Node)
    ensures n.SeatNode? ==> r == SeatNode(Rehighlight(n.e, selected))
    ensures n.Swatch? ==> r.Swatch? && r.colour != Some(Selected)
    ensures n.Swatch? && n.colour != Some(Selected) ==> r == n
  {
    match n
    case SeatNode(e) => SeatNode(Rehighlight(e, selected))
    case Swatch(c) => if c == Some(Selected) then Swatch(None) else n
  }

  /** The re-highlight as written: every `seat`-class element, legend included. */
  function RefreshAsWritten(nodes: seq<Node>, selected: seq<string>): (r: seq<Node>)
    ensures |r| == |nodes|
    ensures forall k :: 0 <= k < |nodes| ==> r[k] == RehighlightNode(nodes[k], selected)
  {
    seq(|nodes|, k requires 0 <= k < |nodes| => RehighlightNode(nodes[k], selected))
  }

  /** The re-highlight restricted to the seat buttons: each seat is
      re-highlighted and every swatch is left as drawn. */
  function RefreshSeatsOnly(nodes: seq<Node>, selected: seq<string>): (r: seq<Node>)
    ensures |r| == |nodes|
    ensures forall k :: 0 <= k < |nodes| && nodes[k].Swatch? ==> r[k] == nodes[k]
    ensures forall k :: 0 <= k < |nodes| && nodes[k].SeatNode? ==>
      r[k] == SeatNode(Rehighlight(nodes[k].e, selected))
  {
    seq(|nodes|, k requires 0 <= k < |nodes| =>
      if nodes[k].SeatNode? then SeatNode(Rehighlight(nodes[k].e, selected)) else nodes[k])
  }

  /** As written, after any re-highlight -- a click on a seat with a
      handler, or a count change -- the legend's "Selected" swatch has no
      colour left, and no element shows the selected swatch colour. */
  lemma RefreshAsWrittenBlanksSelectedSwatch(els: seq<Element>, selected: seq<string>)
    ensures RefreshAsWritten(Document(els), selected)[|els| + SelectedSwatch] == Swatch(None)
    ensures Swatch(Some(Selected)) !in RefreshAsWritten(Document(els), selected)
  {
    var d := Document(els);
    assert d[|els| + SelectedSwatch] == Swatch(Some(Selected));
  }

  /** Restricted to the seat buttons, the re-highlight does to the seats
      exactly what `Grid.Refresh` does and leaves the legend as drawn. */
  lemma RefreshSeatsOnlyMatchesGrid(els: seq<Element>, selected: seq<string>)
    ensures RefreshSeatsOnly(Document(els), selected) == Document(Refresh(els, selected))
  {
    var a := RefreshSeatsOnly(Document(els), selected);
    var b := Document(Refresh(els, selected));
    assert |a| == |b|;
    forall k | 0 <= k < |a| ensures a[k] == b[k] {
      if k < |els| {
        assert Document(els)[k] == SeatNode(els[k]);
      } else {
        assert Document(els)[k] == Swatches[k - |els|];
        assert b[k] == Swatches[k - |els|];
      }
    }
  }

  /** On the seat buttons the two re-highlights agree: they differ only on
      the legend. */
  lemma RefreshesAgreeOnSeats(els: seq<Element>, selected: seq<string>)
    ensures RefreshAsWritten(Document(els), selected)[..|els|]
         == RefreshSeatsOnly(Document(els), selected)[..|els|]
    ensures RefreshAsWritten(Document(els), selected)
         != RefreshSeatsOnly(Document(els), selected)
  {
    RefreshAsWrittenBlanksSelectedSwatch(els, selected);
    assert RefreshSeatsOnly(Document(els), selected)[|els| + SelectedSwatch] == Swatch(Some(Selected));
  }
}

=== FILE: numbers.dfy ===
/**
 * The part of JavaScript number handling the page relies on: `parseInt` of a
 * price or seat-count text, and `+` on the results, where NaN absorbs
 * everything it is added to. Prices are whole numbers.
 */
module Numbers {

  datatype Amount = Num(n: nat) | NaN

  predicate IsDigit(c: char) {
    '0' <= c <= '9'
  }

  predicate AllDigits(d: string) {
    forall j :: 0 <= j < |d| ==> IsDigit(d[j])
  }

  function DigitValue(c: char): (v: nat)
    requires IsDigit(c)
    ensures v < 10
  {
    c as int - '0' as int
  }

  function DigitChar(v: nat): (c: char)
    requires v < 10
    ensures IsDigit(c) && DigitValue(c) == v
  {
    ('0' as int + v) as char
  }

  /** Length of the run of decimal digits that `s` starts with. */
  function DigitRun(s: string): (k: nat)
    ensures k <= |s|
    ensures AllDigits(s[..k])
    ensures k < |s| ==> !IsDigit(s[k])
    decreases |s|
  {
    if |s| == 0 || !IsDigit(s[0]) then 0
    else
      var k := DigitRun(s[1..]);
      assert s[..k + 1] == [s[0]] + s[1..][..k];
      k + 1
  }

  /** Value of a decimal numeral, most significant digit first. */
  function DecimalValue(d: string): nat
    requires AllDigits(d)
    decreases |d|
  {
    if |d| == 0 then 0
    else 10 * DecimalValue(d[..|d| - 1]) + DigitValue(d[|d| - 1])
  }

  /** `parseInt(s)`: the value of the leading digit run, NaN when there is none. */
  function ParseInt(s: string): (a: Amount)
    ensures a.NaN? <==> |s| == 0 || !IsDigit(s[0])
  {
    var k := DigitRun(s);
    if k == 0 then NaN else Num(DecimalValue(s[..k]))
  }

  /** The decimal numeral of `n`, without leading zeros. */
  function Decimal(n: nat): (d: string)
    ensures |d| > 0 && AllDigits(d)
    ensures |d| > 1 ==> d[0] != '0'
  {
    if n < 10 then [DigitChar(n)]
    else Decimal(n / 10) + [DigitChar(n % 10)]
  }

  lemma {:induction false} DecimalValueOfDecimal(n: nat)
    ensures DecimalValue(Decimal(n)) == n
  {
    if n >= 10 {
      var d := Decimal(n);
      assert d[..|d| - 1] == Decimal(n / 10);
      DecimalValueOfDecimal(n / 10);
    }
  }

  /** The digit run of a numeral followed by non-digit text is the numeral. */
  lemma {:induction false} DigitRunOfNumeral(d: string, rest: string)
    requires AllDigits(d)
    requires |rest| == 0 || !IsDigit(rest[0])
    ensures DigitRun(d + rest) == |d|
    decreases |d|
  {
    if |d| > 0 {
      assert (d + rest)[1..] == d[1..] + rest;
      DigitRunOfNumeral(d[1..], rest);
    } else {
      assert d + rest == rest;
    }
  }

  /** `parseInt` reads back a written number, whatever non-digit text follows it. */
  lemma ParseIntDecimal(n: nat, rest: string)
    requires |rest| == 0 || !IsDigit(rest[0])
    ensures ParseInt(Decimal(n) + rest) == Num(n)
  {
    var d := Decimal(n);
    DigitRunOfNumeral(d, rest);
    assert (d + rest)[..|d|] == d;
    DecimalValueOfDecimal(n);
  }

  /** JavaScript `+` on two parsed numbers. */
  function Add(a: Amount, b: Amount): (r: Amount)
    ensures r.NaN? <==> a.NaN? || b.NaN?
    ensures r.Num? ==> r.n == a.n + b.n
  {
    if a.Num? && b.Num? then Num(a.n + b.n) else NaN
  }
}

=== FILE: prices.dfy ===
/**
 * The price total: a left-to-right sum of the prices of the selected seat
 * ids, starting from 0, where an unparsable price makes the total NaN.
 */
module Prices {
  import opened Numbers
  import Selection

  /** Parsed price per seat id. */
  type PriceTable = map<string, Amount>

  predicate Priced(selected: seq<string>, prices: PriceTable) {
    forall id :: id in selected ==> id in prices
  }

  /** `selected.reduce((sum, id) => sum + price(id), 0)`. */
  function Total(selected: seq<string>, prices: PriceTable): (t: Amount)
    requires Priced(selected, prices)
    ensures t.NaN? <==> exists id :: id in selected && prices[id].NaN?
    ensures |selected| == 0 ==> t == Num(0)
    decreases |selected|
  {
    if |selected| == 0 then Num(0)
    else
      var init := selected[..|selected| - 1];
      var last := selected[|selected| - 1];
      assert selected == init + [last];
      Add(Total(init, prices), prices[last])
  }

  /** Selecting one more seat adds its price to the total. */
  lemma TotalAppend(selected: seq<string>, id: string, prices: PriceTable)
    requires Priced(selected, prices) && id in prices
    ensures Priced(selected + [id], prices)
    ensures Total(selected + [id], prices) == Add(Total(selected, prices), prices[id])
  {
    assert (selected + [id])[..|selected|] == selected;
  }

  lemma RemoveAtPriced(selected: seq<string>, k: nat, prices: PriceTable)
    requires k < |selected| && Priced(selected, prices)
    ensures Priced(Selection.RemoveAt(selected, k), prices)
  {
    var r := Selection.RemoveAt(selected, k);
    forall id | id in r ensures id in prices {
      var j :| 0 <= j < |r| && r[j] == id;
      if j < k { assert selected[j] == id; } else { assert selected[j + 1] == id; }
    }
  }

  /** Adding two amounts in either order after a third gives the same sum. */
  lemma AddSwapLast(a: Amount, b: Amount, c: Amount)
    ensures Add(Add(a, b), c) == Add(Add(a, c), b)
  {
  }

  /** Removing the seat at any position takes its price off the total: the
      sum does not depend on where in the click order the seat was. */
  lemma {:induction false} TotalRemoveAt(selected: seq<string>, k: nat, prices: PriceTable)
    requires k < |selected| && Priced(selected, prices)
    ensures Priced(Selection.RemoveAt(selected, k), prices)
    ensures Total(selected, prices)
         == Add(Total(Selection.RemoveAt(selected, k), prices), prices[selected[k]])
    decreases |selected|
  {
    RemoveAtPriced(selected, k, prices);
    var n := |selected|;
    var init := selected[..n - 1];
    var last := selected[n - 1];
    assert selected == init + [last];
    if k == n - 1 {
      assert Selection.RemoveAt(selected, k) == init;
    } else {
      var r' := Selection.RemoveAt(init, k);
      assert Priced(init, prices);
      TotalRemoveAt(init, k, prices);
      assert Selection.RemoveAt(selected, k) == r' + [last];
      RemoveAtPriced(init, k, prices);
      TotalAppend(r', last, prices);
      AddSwapLast(Total(r', prices), prices[init[k]], prices[last]);
    }
  }

  /** Selecting a seat and deselecting it again leaves the total as it was. */
  lemma TotalRoundTrip(st: Selection.SelectionState, id: string, prices: PriceTable)
    requires id !in st.selected && |st.selected| < st.maxSeats
    requires Priced(st.selected, prices) && id in prices
    ensures Priced(Selection.Toggle(st, id).selected, prices)
    ensures Total(Selection.Toggle(Selection.Toggle(st, id), id).selected, prices)
         == Total(st.selected, prices)
  {
    Selection.ToggleRoundTrip(st, id);
  }
}

=== FILE: scenarios.dfy ===
/**
 * Concrete runs of the page on one row: "A1:150", "A2:150", a spacer and
 * "A3:200".
 */
module Scenarios {
  import opened Wrappers
  import opened Numbers
  import Cells
  import opened Display
  import opened Selection
  import opened Grid
  import opened Theater
  import Prices

  const Row: seq<string> := ["A1:150", "A2:150", "&", "A3:200"]

  function A1(status: StatusMap): Element { SeatElement(Cells.Seat("A1", Some("150")), status) }
  function A2(status: StatusMap): Element { SeatElement(Cells.Seat("A2", Some("150")), status) }
  function A3(status: StatusMap): Element { SeatElement(Cells.Seat("A3", Some("200")), status) }

  lemma ParsesPrices()
    ensures ParseInt("150") == Num(150) && ParseInt("200") == Num(200)
  {
    assert Decimal(150) == "150" by {
      assert Decimal(15) == "15";
    }
    assert Decimal(200) == "200" by {
      assert Decimal(20) == "20";
    }
    assert "150" + "" == "150" && "200" + "" == "200";
    ParseIntDecimal(150, "");
    ParseIntDecimal(200, "");
  }

  lemma SeatCells(status: StatusMap)
    ensures CellElements("A1:150", status) == [A1(status)]
    ensures CellElements("A2:150", status) == [A2(status)]
    ensures CellElements("A3:200", status) == [A3(status)]
    ensures CellElements("&", status) == []
  {
    assert Cells.Encode("A1", "150") == "A1:150";
    assert Cells.Encode("A2", "150") == "A2:150";
    assert Cells.Encode("A3", "200") == "A3:200";
    Cells.DecodeEncode("A1", "150");
    Cells.DecodeEncode("A2", "150");
    Cells.DecodeEncode("A3", "200");
  }

  /** A row of four cells renders each cell in turn. */
  lemma RenderFourCells(c1: string, c2: string, c3: string, c4: string, status: StatusMap)
    ensures Render([[c1, c2, c3, c4]], status)
         == CellElements(c1, status) + CellElements(c2, status) + CellElements(c3, status)
            + CellElements(c4, status)
  {
    FlattenOneRow([c1, c2, c3, c4]);
    RenderOneCell(c1, status);
    RenderOneCell(c2, status);
    RenderOneCell(c3, status);
    RenderOneCell(c4, status);
    assert [c1, c2, c3, c4] == [c1] + [c2] + [c3] + [c4];
    RenderCellsAppend([c1] + [c2] + [c3], [c4], status);
    RenderCellsAppend([c1] + [c2], [c3], status);
    RenderCellsAppend([c1], [c2], status);
  }

  /** The row renders to its three seats; the spacer renders to nothing. */
  lemma RendersRow(status: StatusMap)
    ensures Render([Row], status) == [A1(status), A2(status), A3(status)]
  {
    SeatCells(status);
    RenderFourCells("A1:150", "A2:150", "&", "A3:200", status);
    JoinThree(A1(status), A2(status), A3(status));
  }

  lemma JoinThree(x: Element, y: Element, z: Element)
    ensures [x] + [y] + [] + [z] == [x, y, z]
  {
  }

  /** The row's seats as drawn with no statuses and nothing selected. */
  const RowSeats: seq<Element> := [
    Element("A1", "150", Available, true),
    Element("A2", "150", Available, true),
    Element("A3", "200", Available, true)]

  lemma RendersFreeRow()
    ensures Render([Row], map[]) == RowSeats
  {
    RendersRow(map[]);
  }

  /** Three clickable seats with distinct ids and parsable prices. */
  predicate Trio(seats: seq<Element>, px: nat, py: nat, pz: nat) {
    && |seats| == 3
    && seats[0].id != seats[1].id && seats[1].id != seats[2].id && seats[0].id != seats[2].id
    && seats[0].clickable && seats[1].clickable && seats[2].clickable
    && ParseInt(seats[0].price) == Num(px)
    && ParseInt(seats[1].price) == Num(py)
    && ParseInt(seats[2].price) == Num(pz)
  }

  lemma TrioPrices(els: seq<Element>, px: nat, py: nat, pz: nat)
    requires Trio(els, px, py, pz)
    ensures els[0].id in PriceTable(els) && PriceTable(els)[els[0].id] == Num(px)
    ensures els[1].id in PriceTable(els) && PriceTable(els)[els[1].id] == Num(py)
    ensures els[2].id in PriceTable(els) && PriceTable(els)[els[2].id] == Num(pz)
  {
    PriceTableFirst(els, 0);
    PriceTableFirst(els, 1);
    PriceTableFirst(els, 2);
  }

  /** A page over the seats `seats` in the given selection state. */
  predicate OnSeats(p: Page, seats: seq<Element>, selected: seq<string>, maxSeats: nat) {
    && SameSeats(p.elements, seats)
    && p.state == SelectionState(selected, maxSeats)
    && SelectionOnPage(p)
  }

  lemma SameSeatsTrio(a: seq<Element>, b: seq<Element>, px: nat, py: nat, pz: nat)
    requires SameSeats(a, b) && Trio(b, px, py, pz)
    ensures Trio(a, px, py, pz)
  {
  }

  lemma TotalOfOne(x: string, t: Prices.PriceTable)
    requires x in t
    ensures Prices.Total([x], t) == Add(Num(0), t[x])
  {
    assert [x][..0] == [];
  }

  lemma TotalOfTwo(x: string, z: string, t: Prices.PriceTable)
    requires x in t && z in t
    ensures Prices.Total([x, z], t) == Add(Add(Num(0), t[x]), t[z])
  {
    TotalOfOne(x, t);
    assert [x, z][..1] == [x];
  }

  /** The page a click on element `k` of `p` leads to, when that element has
      a handler and the toggle gives `selected`. */
  lemma ClickStep(p: Page, seats: seq<Element>, k: nat, selected: seq<string>, t: Amount)
    requires OnSeats(p, seats, p.state.selected, p.state.maxSeats)
    requires k < |seats| && seats[k].clickable
    requires Toggle(p.state, seats[k].id).selected == selected
    requires Prices.Priced(selected, PriceTable(p.elements))
    requires Prices.Total(selected, PriceTable(p.elements)) == t
    ensures OnSeats(Click(p, k), seats, selected, p.state.maxSeats)
    ensures Click(p, k).shown == Some(t)
  {
    ClickedTotal(p, k);
  }

  /** First click: the first seat is selected and its price is shown. */
  lemma ClickFirst(p: Page, seats: seq<Element>, px: nat, py: nat, pz: nat)
    requires Trio(seats, px, py, pz) && OnSeats(p, seats, [], 2)
    ensures OnSeats(Click(p, 0), seats, [seats[0].id], 2)
    ensures Click(p, 0).shown == Some(Num(px))
  {
    SameSeatsTrio(p.elements, seats, px, py, pz);
    TrioPrices(p.elements, px, py, pz);
    TotalOfOne(seats[0].id, PriceTable(p.elements));
    assert Toggle(p.state, seats[0].id).selected == [seats[0].id];
    ClickStep(p, seats, 0, [seats[0].id], Num(px));
  }

  /** Second click, on the third seat: it joins, and both prices are shown. */
  lemma ClickThird(p: Page, seats: seq<Element>, px: nat, py: nat, pz: nat)
    requires Trio(seats, px, py, pz) && OnSeats(p, seats, [seats[0].id], 2)
    ensures OnSeats(Click(p, 2), seats, [seats[0].id, seats[2].id], 2)
    ensures Click(p, 2).shown == Some(Num(px + pz))
  {
    SameSeatsTrio(p.elements, seats, px, py, pz);
    TrioPrices(p.elements, px, py, pz);
    TotalOfTwo(seats[0].id, seats[2].id, PriceTable(p.elements));
    assert [seats[0].id] + [seats[2].id] == [seats[0].id, seats[2].id];
    assert Toggle(p.state, seats[2].id).selected == [seats[0].id, seats[2].id];
    ClickStep(p, seats, 2, [seats[0].id, seats[2].id], Num(px + pz));
  }

  /** Third click, on the second seat: the cap is reached, nothing changes. */
  lemma ClickSecondRefused(p: Page, seats: seq<Element>, px: nat, py: nat, pz: nat)
    requires Trio(seats, px, py, pz) && OnSeats(p, seats, [seats[0].id, seats[2].id], 2)
    ensures OnSeats(Click(p, 1), seats, [seats[0].id, seats[2].id], 2)
    ensures Click(p, 1).shown == Some(Num(px + pz))
  {
    SameSeatsTrio(p.elements, seats, px, py, pz);
    TrioPrices(p.elements, px, py, pz);
    TotalOfTwo(seats[0].id, seats[2].id, PriceTable(p.elements));
    var sel := [seats[0].id, seats[2].id];
    assert seats[1].id !in sel by {
      assert sel[0] == seats[0].id && sel[1] == seats[2].id && |sel| == 2;
    }
    assert |p.state.selected| >= p.state.maxSeats;
    assert Toggle(p.state, seats[1].id) == p.state;
    ClickStep(p, seats, 1, sel, Num(px + pz));
  }

  /** Fourth click, on the first seat again: it is deselected. */
  lemma ClickFirstAgain(p: Page, seats: seq<Element>, px: nat, py: nat, pz: nat)
    requires Trio(seats, px, py, pz) && OnSeats(p, seats, [seats[0].id, seats[2].id], 2)
    ensures OnSeats(Click(p, 0), seats, [seats[2].id], 2)
    ensures Click(p, 0).shown == Some(Num(pz))
  {
    SameSeatsTrio(p.elements, seats, px, py, pz);
    TrioPrices(p.elements, px, py, pz);
    TotalOfOne(seats[2].id, PriceTable(p.elements));
    assert IndexOf([seats[0].id, seats[2].id], seats[0].id) == 0;
    assert RemoveAt([seats[0].id, seats[2].id], 0) == [seats[2].id];
    assert Toggle(p.state, seats[0].id).selected == [seats[2].id];
    ClickStep(p, seats, 0, [seats[2].id], Num(pz));
  }

  /** With three free seats x, y, z and two seats allowed: x is selected
      (its price shown), z joins (both prices), y is refused because the cap
      is reached (the total stays), and x is deselected (z's price alone). */
  lemma CapAndTotalRun(p0: Page, seats: seq<Element>, px: nat, py: nat, pz: nat)
    requires Trio(seats, px, py, pz) && OnSeats(p0, seats, [], 2)
    ensures SelectionOnPage(p0)
    ensures var p1 := Click(p0, 0);
            var p2 := Click(p1, 2);
            var p3 := Click(p2, 1);
            var p4 := Click(p3, 0);
            && p1.state.selected == [seats[0].id] && p1.shown == Some(Num(px))
            && p2.state.selected == [seats[0].id, seats[2].id] && p2.shown == Some(Num(px + pz))
            && p3.state.selected == [seats[0].id, seats[2].id] && p3.shown == Some(Num(px + pz))
            && p4.state.selected == [seats[2].id] && p4.shown == Some(Num(pz))
  {
    var p1 := Click(p0, 0);
    ClickFirst(p0, seats, px, py, pz);
    var p2 := Click(p1, 2);
    ClickThird(p1, seats, px, py, pz);
    var p3 := Click(p2, 1);
    ClickSecondRefused(p2, seats, px, py, pz);
    ClickFirstAgain(p3, seats, px, py, pz);
  }

  /** Loading the row and choosing `n` seats, with the count handler as
      written, gives its three free seats, an empty selection and cap `n`. */
  lemma LoadRow(n: nat)
    ensures OnSeats(ChangeCountAsWritten(Load([Row], map[]), n), RowSeats, [], n)
  {
    RendersFreeRow();
  }

  /** The row, loaded with two seats allowed: A1 is selected (total 150), A3
      joins (total 350), A2 is refused because the cap is reached (total still
      350), and A1 is deselected (total 200). */
  lemma CapAndTotalScenario(p0: Page)
    requires OnSeats(p0, RowSeats, [], 2)
    ensures SelectionOnPage(p0)
    ensures var p1 := Click(p0, 0);
            var p2 := Click(p1, 2);
            var p3 := Click(p2, 1);
            var p4 := Click(p3, 0);
            && p1.state.selected == ["A1"] && p1.shown == Some(Num(150))
            && p2.state.selected == ["A1", "A3"] && p2.shown == Some(Num(350))
            && p3.state.selected == ["A1", "A3"] && p3.shown == Some(Num(350))
            && p4.state.selected == ["A3"] && p4.shown == Some(Num(200))
  {
    ParsesPrices();
    assert Trio(RowSeats, 150, 150, 200);
    CapAndTotalRun(p0, RowSeats, 150, 150, 200);
  }

  /** With A2 taken, A2 is drawn taken, has no click handler, and clicking it
      changes nothing. */
  lemma TakenSeatScenario(status: StatusMap, p: Page)
    requires status == map["A2" := TakenStatus]
    requires p == Load([Row], status)
    ensures |p.elements| == 3 && p.elements[1].id == "A2"
    ensures p.elements[1].cls == Taken && !p.elements[1].clickable
    ensures SelectionOnPage(p) && Click(p, 1) == p
  {
    RendersRow(status);
  }

  /** The seat-count handler as written leaves the old total on display:
      after selecting A1 (total 150) and switching to one seat, the
      selection is empty but 150 is still shown. */
  lemma StaleTotalAfterCountChange(p0: Page)
    requires OnSeats(p0, RowSeats, [], 2)
    ensures SelectionOnPage(p0)
    ensures var p2 := ChangeCountAsWritten(Click(p0, 0), 1);
            && p2.state.selected == []
            && p2.shown == Some(Num(150))
            && !ShownCurrent(p2)
  {
    FirstClickOnRow(p0);
  }

  /** The corrected handler shows 0 for the same run. */
  lemma CorrectedTotalAfterCountChange(p0: Page)
    requires OnSeats(p0, RowSeats, [], 2)
    ensures SelectionOnPage(p0)
    ensures var p2 := ChangeCount(Click(p0, 0), 1);
            && p2.state.selected == []
            && p2.shown == Some(Num(0))
            && ShownCurrent(p2)
  {
    FirstClickOnRow(p0);
  }

  lemma FirstClickOnRow(p0: Page)
    requires OnSeats(p0, RowSeats, [], 2)
    ensures SelectionOnPage(p0)
    ensures OnSeats(Click(p0, 0), RowSeats, ["A1"], 2) && Click(p0, 0).shown == Some(Num(150))
  {
    ParsesPrices();
    assert Trio(RowSeats, 150, 150, 200);
    ClickFirst(p0, RowSeats, 150, 150, 200);
  }
}

=== FILE: selection.dfy ===
/**
 * The selection state machine: the ordered list of selected seat ids and the
 * cap on how many may be selected. A click toggles a seat; changing the seat
 * count replaces the cap and clears the selection.
 */
module Selection {

  datatype SelectionState = SelectionState(selected: seq<string>, maxSeats: nat)

  /** The cap the page starts with, matching the first seat-count option. */
  const DefaultMaxSeats: nat := 1

  predicate NoDuplicates(s: seq<string>) {
    forall i, j :: 0 <= i < j < |s| ==> s[i] != s[j]
  }

  /** The invariant every reachable selection keeps. */
  predicate Valid(st: SelectionState) {
    NoDuplicates(st.selected) && |st.selected| <= st.maxSeats
  }

  /** `s.indexOf(x)`: the first position of `x`, or -1. */
  function IndexOf(s: seq<string>, x: string): (i: int)
    ensures -1 <= i < |s|
    ensures i == -1 <==> x !in s
    ensures 0 <= i ==> s[i] == x && x !in s[..i]
    decreases |s|
  {
    if |s| == 0 then -1
    else if s[0] == x then 0
    else
      var j := IndexOf(s[1..], x);
      if j == -1 then -1
      else
        assert s[..j + 1] == [s[0]] + s[1..][..j];
        j + 1
  }

  /** `s.splice(i, 1)`. */
  function RemoveAt(s: seq<string>, i: nat): (r: seq<string>)
    requires i < |s|
    ensures |r| == |s| - 1
    ensures forall k :: 0 <= k < i ==> r[k] == s[k]
    ensures forall k :: i <= k < |r| ==> r[k] == s[k + 1]
  {
    s[..i] + s[i + 1..]
  }

  /** The state after page load: nothing selected, cap 1. */
  function Init(): (st: SelectionState)
    ensures Valid(st)
    ensures |st.selected| == 0 && st.maxSeats == DefaultMaxSeats
  {
    SelectionState([], DefaultMaxSeats)
  }

  /** A click on a bookable seat. */
  function Toggle(st: SelectionState, id: string): (r: SelectionState)
    ensures r.maxSeats == st.maxSeats
    ensures id !in st.selected && |st.selected| < st.maxSeats ==> r.selected == st.selected + [id]
    ensures id !in st.selected && |st.selected| >= st.maxSeats ==> r == st
    ensures id in st.selected ==>
      exists k :: 0 <= k < |st.selected| && st.selected[k] == id && id !in st.selected[..k]
        && r.selected == st.selected[..k] + st.selected[k + 1..]
    ensures forall x :: x != id ==> (x in r.selected <==> x in st.selected)
  {
    var i := IndexOf(st.selected, id);
    if i == -1 then
      if |st.selected| < st.maxSeats then st.(selected := st.selected + [id]) else st
    else
      st.(selected := RemoveAt(st.selected, i))
  }

  /** A new seat count: the cap is replaced and the selection emptied. */
  function Reset(st: SelectionState, n: nat): (r: SelectionState)
    ensures Valid(r)
    ensures r.maxSeats == n && |r.selected| == 0
  {
    SelectionState([], n)
  }

  lemma RemoveAtKeepsNoDuplicates(s: seq<string>, i: nat)
    requires i < |s| && NoDuplicates(s)
    ensures NoDuplicates(RemoveAt(s, i))
    ensures s[i] !in RemoveAt(s, i)
  {
    var r := RemoveAt(s, i);
    forall a, b | 0 <= a < b < |r|
      ensures r[a] != r[b]
    {
      var a' := if a < i then a else a + 1;
      var b' := if b < i then b else b + 1;
      assert r[a] == s[a'] && r[b] == s[b'];
    }
  }

  /** Every toggle keeps the selection duplicate-free and within the cap;
      in a valid state the toggled seat ends up selected exactly when it was
      not selected and there was room. */
  lemma ToggleKeepsValid(st: SelectionState, id: string)
    requires Valid(st)
    ensures Valid(Toggle(st, id))
    ensures id in Toggle(st, id).selected <==> id !in st.selected && |st.selected| < st.maxSeats
  {
    var i := IndexOf(st.selected, id);
    if i != -1 {
      RemoveAtKeepsNoDuplicates(st.selected, i);
    }
  }

  /** Removing a selected seat does not depend on the cap. */
  lemma RemovalIgnoresCap(st: SelectionState, id: string, m: nat)
    requires id in st.selected
    ensures Toggle(st.(maxSeats := m), id).selected == Toggle(st, id).selected
  {
  }

  /** Selecting a seat and then deselecting it restores the state. */
  lemma ToggleRoundTrip(st: SelectionState, id: string)
    requires id !in st.selected && |st.selected| < st.maxSeats
    ensures Toggle(Toggle(st, id), id) == st
  {
    var s := st.selected + [id];
    assert IndexOf(s, id) == |st.selected|;
    assert s[..|st.selected|] == st.selected;
  }

  /** Toggling a selected seat twice moves it to the end of the selection. */
  lemma ToggleTwiceMovesToEnd(st: SelectionState, id: string)
    requires Valid(st) && id in st.selected
    ensures Toggle(Toggle(st, id), id).selected
         == RemoveAt(st.selected, IndexOf(st.selected, id)) + [id]
  {
    ToggleKeepsValid(st, id);
  }

  /** User input as the selection alone sees it: a seat id rather than a
      position on the page. Kept beside the page's own events so that the
      state machine's invariant is stated with no reference to elements. */
  datatype Action = Pick(id: string) | SetCount(n: nat)

  function Apply(st: SelectionState, a: Action): SelectionState {
    match a
    case Pick(id) => Toggle(st, id)
    case SetCount(n) => Reset(st, n)
  }

  function Run(st: SelectionState, actions: seq<Action>): SelectionState
    decreases |actions|
  {
    if |actions| == 0 then st else Run(Apply(st, actions[0]), actions[1..])
  }

  /** No sequence of clicks and count changes breaks the invariant. */
  lemma {:induction false} RunKeepsValid(st: SelectionState, actions: seq<Action>)
    requires Valid(st)
    ensures Valid(Run(st, actions))
    decreases |actions|
  {
    if |actions| > 0 {
      if actions[0].Pick? {
        ToggleKeepsValid(st, actions[0].id);
      }
      RunKeepsValid(Apply(st, actions[0]), actions[1..]);
    }
  }

  /** Every state reachable from page load has at most `maxSeats` seats. */
  lemma ReachableWithinCap(actions: seq<Action>)
    ensures |Run(Init(), actions).selected| <= Run(Init(), actions).maxSeats
    ensures NoDuplicates(Run(Init(), actions).selected)
  {
    RunKeepsValid(Init(), actions);
  }
}

=== FILE: theater.dfy ===
/**
 * The page as a whole: the rendered seat elements, the selection state and
 * the total text on display, driven by the two user inputs the page handles
 * (a click on a seat element and a change of the seat-count selector).
 */
module Theater {
  import opened Wrappers
  import opened Numbers
  import opened Display
  import opened Selection
  import opened Grid
  import Prices

  /** `shown` is the total the page displays; None until the page first writes it. */
  datatype Page = Page(elements: seq<Element>, state: SelectionState, shown: Option<Amount>)

  /** Every selected id has a seat element, so the total can look its price up. */
  predicate SelectionOnPage(p: Page) {
    forall id :: id in p.state.selected ==> OnPage(p.elements, id)
  }

  /** Two element lists describe the same seats: same ids, prices and
      handlers in the same order; only the drawn classes may differ. */
  predicate SameSeats(a: seq<Element>, b: seq<Element>) {
    && |a| == |b|
    && forall j :: 0 <= j < |a| ==>
         a[j].id == b[j].id && a[j].price == b[j].price && a[j].clickable == b[j].clickable
  }

  /** The page right after load. */
  function Load(layout: seq<seq<string>>, status: StatusMap): (p: Page)
    ensures p.state == Init() && p.shown.None?
    ensures DrawnFrom(p.elements, status)
  {
    RenderIsDrawnFrom(layout, status);
    Page(Render(layout, status), Init(), None)
  }

  lemma RefreshKeepsOnPage(els: seq<Element>, selected: seq<string>, id: string)
    requires OnPage(els, id)
    ensures OnPage(Refresh(els, selected), id)
  {
    var k :| 0 <= k < |els| && els[k].id == id;
    assert Refresh(els, selected)[k].id == id;
  }

  /** A click on the seat element at position `k`. Only elements with a click
      handler react; they toggle their seat, re-highlight the grid and show
      the new total. */
  function Click(p: Page, k: nat): (r: Page)
    requires k < |p.elements| && SelectionOnPage(p)
    ensures SelectionOnPage(r)
    ensures SameSeats(r.elements, p.elements)
    ensures !p.elements[k].clickable ==> r == p
    ensures p.elements[k].clickable ==> r.state == Toggle(p.state, p.elements[k].id)
    ensures p.elements[k].clickable ==> r.shown == Some(TotalOf(r.state.selected, r.elements))
  {
    var e := p.elements[k];
    if !e.clickable then p
    else
      var st := Toggle(p.state, e.id);
      var els := Refresh(p.elements, st.selected);
      ToggleKeepsOnPage(p, k);
      Page(els, st, Some(TotalOf(st.selected, els)))
  }

  /** After a toggle on element `k` every selected id still has an element:
      the toggled id has element `k`, and every other id kept its element. */
  lemma ToggleKeepsOnPage(p: Page, k: nat)
    requires k < |p.elements| && SelectionOnPage(p)
    ensures forall id :: id in Toggle(p.state, p.elements[k].id).selected ==>
      OnPage(Refresh(p.elements, Toggle(p.state, p.elements[k].id).selected), id)
  {
    var e := p.elements[k];
    var st := Toggle(p.state, e.id);
    var els := Refresh(p.elements, st.selected);
    forall id | id in st.selected ensures OnPage(els, id) {
      if id == e.id {
        assert els[k].id == id;
      } else {
        RefreshKeepsOnPage(p.elements, st.selected, id);
      }
    }
  }

  /** The total a click displays, read from the prices of the page it
      clicked on. */
  lemma ClickedTotal(p: Page, k: nat)
    requires k < |p.elements| && SelectionOnPage(p) && p.elements[k].clickable
    ensures Prices.Priced(Click(p, k).state.selected, PriceTable(p.elements))
    ensures Click(p, k).shown == Some(Prices.Total(Click(p, k).state.selected, PriceTable(p.elements)))
  {
    var r := Click(p, k);
    PriceTableDependsOnIdsAndPrices(r.elements, p.elements);
  }

  /** The seat-count change handler as written: it resets the selection and
      re-highlights the grid but leaves the displayed total as it was. */
  function ChangeCountAsWritten(p: Page, n: nat): (r: Page)
    ensures r.state == Reset(p.state, n)
    ensures r.shown == p.shown
    ensures SelectionOnPage(r)
    ensures SameSeats(r.elements, p.elements)
  {
    Page(Refresh(p.elements, []), Reset(p.state, n), p.shown)
  }

  /** The seat-count change handler with the total refreshed as well: an
      empty selection shows a total of 0. */
  function ChangeCount(p: Page, n: nat): (r: Page)
    ensures r.state == Reset(p.state, n)
    ensures SelectionOnPage(r)
    ensures r.shown == Some(TotalOf(r.state.selected, r.elements))
    ensures SameSeats(r.elements, p.elements)
  {
    Page(Refresh(p.elements, []), Reset(p.state, n), Some(Num(0)))
  }

  /** Exactly the bookable seats have a click handler. */
  predicate HandlersMatch(els: seq<Element>, status: StatusMap) {
    forall k :: 0 <= k < |els| ==> (els[k].clickable <==> Bookable(status, els[k].id))
  }

  /** Every element is drawn as `Classify` says for the selection. */
  predicate DrawnAs(els: seq<Element>, status: StatusMap, selected: seq<string>) {
    forall k :: 0 <= k < |els| ==> els[k].cls == Classify(els[k].id, status, selected)
  }

  /** Every selected id belongs to an element with a click handler. */
  predicate SelectedClickable(els: seq<Element>, selected: seq<string>) {
    forall id :: id in selected ==>
      exists k :: 0 <= k < |els| && els[k].id == id && els[k].clickable
  }

  /** The displayed total is the total of the current selection. */
  predicate ShownCurrent(p: Page) {
    && (p.shown.None? ==> |p.state.selected| == 0)
    && (p.shown.Some? ==> SelectionOnPage(p) && p.shown.value == TotalOf(p.state.selected, p.elements))
  }

  /** What holds of every page reachable from load whichever seat-count
      handler the page uses: everything but the displayed total. */
  predicate SeatsInv(p: Page, status: StatusMap) {
    && Valid(p.state)
    && HandlersMatch(p.elements, status)
    && DrawnAs(p.elements, status, p.state.selected)
    && SelectedClickable(p.elements, p.state.selected)
  }

  /** What holds of every page reachable from load with the corrected
      seat-count handler. */
  predicate Inv(p: Page, status: StatusMap) {
    SeatsInv(p, status) && ShownCurrent(p)
  }

  lemma InvSelectionOnPage(p: Page, status: StatusMap)
    requires SeatsInv(p, status)
    ensures SelectionOnPage(p)
    ensures forall id :: id in p.state.selected ==> Bookable(status, id)
  {
    forall id | id in p.state.selected ensures OnPage(p.elements, id) && Bookable(status, id) {
      var k :| 0 <= k < |p.elements| && p.elements[k].id == id && p.elements[k].clickable;
    }
  }

  lemma LoadEstablishesInv(layout: seq<seq<string>>, status: StatusMap)
    ensures Inv(Load(layout, status), status)
  {
  }

  lemma RefreshKeepsHandlers(els: seq<Element>, status: StatusMap, selected: seq<string>)
    requires HandlersMatch(els, status)
    ensures HandlersMatch(Refresh(els, selected), status)
  {
  }

  lemma ToggleKeepsSelectedClickable(p: Page, k: nat)
    requires k < |p.elements| && p.elements[k].clickable
    requires SelectedClickable(p.elements, p.state.selected)
    ensures SelectedClickable(
      Refresh(p.elements, Toggle(p.state, p.elements[k].id).selected),
      Toggle(p.state, p.elements[k].id).selected)
  {
    var e := p.elements[k];
    var sel := Toggle(p.state, e.id).selected;
    var els := Refresh(p.elements, sel);
    forall id | id in sel
      ensures exists j :: 0 <= j < |els| && els[j].id == id && els[j].clickable
    {
      if id == e.id {
        assert els[k].id == id && els[k].clickable;
      } else {
        var j :| 0 <= j < |p.elements| && p.elements[j].id == id && p.elements[j].clickable;
        assert els[j].id == id && els[j].clickable;
      }
    }
  }

  /** A click keeps the selection valid and made of clickable seats, and
      every element drawn and wired as the status map says. */
  lemma ClickKeepsSeatsInv(p: Page, status: StatusMap, k: nat)
    requires SeatsInv(p, status) && k < |p.elements|
    ensures SelectionOnPage(p)
    ensures SeatsInv(Click(p, k), status)
  {
    InvSelectionOnPage(p, status);
    var e := p.elements[k];
    if e.clickable {
      var r := Click(p, k);
      ToggleKeepsValid(p.state, e.id);
      RefreshKeepsHandlers(p.elements, status, r.state.selected);
      RefreshAgreesWithClassify(p.elements, status, p.state.selected, r.state.selected);
      ToggleKeepsSelectedClickable(p, k);
    }
  }

  /** A click on a seat with a handler shows the current total, whatever
      was on display before: a stale total lasts only until the next such
      click. */
  lemma ClickMakesShownCurrent(p: Page, status: StatusMap, k: nat)
    requires SeatsInv(p, status) && k < |p.elements| && p.elements[k].clickable
    ensures SelectionOnPage(p)
    ensures ShownCurrent(Click(p, k))
  {
    InvSelectionOnPage(p, status);
  }

  lemma ClickKeepsInv(p: Page, status: StatusMap, k: nat)
    requires Inv(p, status) && k < |p.elements|
    ensures SelectionOnPage(p)
    ensures Inv(Click(p, k), status)
  {
    ClickKeepsSeatsInv(p, status, k);
    if p.elements[k].clickable {
      ClickMakesShownCurrent(p, status, k);
    }
  }

  /** Either seat-count handler keeps everything but the displayed total. */
  lemma ChangeCountKeepsSeatsInv(p: Page, status: StatusMap, n: nat)
    requires SeatsInv(p, status)
    ensures SeatsInv(ChangeCountAsWritten(p, n), status)
    ensures SeatsInv(ChangeCount(p, n), status)
  {
    RefreshKeepsHandlers(p.elements, status, []);
    RefreshAgreesWithClassify(p.elements, status, p.state.selected, []);
  }

  lemma ChangeCountKeepsInv(p: Page, status: StatusMap, n: nat)
    requires Inv(p, status)
    ensures Inv(ChangeCount(p, n), status)
  {
    ChangeCountKeepsSeatsInv(p, status, n);
  }

  /** The handler as written breaks the displayed total whenever a non-zero
      total was on display: the selection is emptied but the old total stays. */
  lemma ChangeCountAsWrittenGoesStale(p: Page, status: StatusMap, n: nat)
    requires Inv(p, status) && p.shown.Some? && p.shown.value != Num(0)
    ensures !ShownCurrent(ChangeCountAsWritten(p, n))
    ensures ShownCurrent(ChangeCount(p, n))
  {
  }

  /** User input the page handles. */
  datatype Event = ClickSeat(k: nat) | SelectCount(n: nat)

  predicate Fits(p: Page, e: Event) {
    e.ClickSeat? ==> e.k < |p.elements|
  }

  function Step(p: Page, e: Event): (r: Page)
    requires Fits(p, e) && SelectionOnPage(p)
    ensures SelectionOnPage(r) && SameSeats(r.elements, p.elements)
  {
    match e
    case ClickSeat(k) => Click(p, k)
    case SelectCount(n) => ChangeCount(p, n)
  }

  predicate AllFit(p: Page, events: seq<Event>) {
    forall i :: 0 <= i < |events| ==> Fits(p, events[i])
  }

  function Run(p: Page, events: seq<Event>): (r: Page)
    requires AllFit(p, events) && SelectionOnPage(p)
    ensures SelectionOnPage(r) && SameSeats(r.elements, p.elements)
    decreases |events|
  {
    if |events| == 0 then p
    else
      var q := Step(p, events[0]);
      assert forall i :: 0 <= i < |events| - 1 ==> events[1..][i] == events[i + 1];
      Run(q, events[1..])
  }

  lemma StepKeepsInv(p: Page, status: StatusMap, e: Event)
    requires Inv(p, status) && Fits(p, e)
    ensures SelectionOnPage(p)
    ensures Inv(Step(p, e), status)
  {
    InvSelectionOnPage(p, status);
    match e
    case ClickSeat(k) => ClickKeepsInv(p, status, k);
    case SelectCount(n) => ChangeCountKeepsInv(p, status, n);
  }

  /** Every page reachable by clicks and count changes keeps the selection
      duplicate-free, within the cap and made of bookable seats, draws every
      seat as `Classify` says, and shows the current total. */
  lemma {:induction false} RunKeepsInv(p: Page, status: StatusMap, events: seq<Event>)
    requires Inv(p, status) && AllFit(p, events)
    ensures SelectionOnPage(p)
    ensures Inv(Run(p, events), status)
    decreases |events|
  {
    InvSelectionOnPage(p, status);
    if |events| > 0 {
      StepKeepsInv(p, status, events[0]);
      var q := Step(p, events[0]);
      assert AllFit(q, events[1..]) by {
        assert forall i :: 0 <= i < |events| - 1 ==> events[1..][i] == events[i + 1];
      }
      RunKeepsInv(q, status, events[1..]);
    }
  }

  /** From load, whatever the user does, the invariant holds (with the
      corrected seat-count handler). */
  lemma ReachableInv(layout: seq<seq<string>>, status: StatusMap, events: seq<Event>)
    requires AllFit(Load(layout, status), events)
    ensures Inv(Run(Load(layout, status), events), status)
  {
    LoadEstablishesInv(layout, status);
    RunKeepsInv(Load(layout, status), status, events);
  }

  /** One user input as the page is written: a count change leaves the
      displayed total alone. */
  function StepAsWritten(p: Page, e: Event): (r: Page)
    requires Fits(p, e) && SelectionOnPage(p)
    ensures SelectionOnPage(r) && SameSeats(r.elements, p.elements)
  {
    match e
    case ClickSeat(k) => Click(p, k)
    case SelectCount(n) => ChangeCountAsWritten(p, n)
  }

  function RunAsWritten(p: Page, events: seq<Event>): (r: Page)
    requires AllFit(p, events) && SelectionOnPage(p)
    ensures SelectionOnPage(r) && SameSeats(r.elements, p.elements)
    decreases |events|
  {
    if |events| == 0 then p
    else
      var q := StepAsWritten(p, events[0]);
      assert forall i :: 0 <= i < |events| - 1 ==> events[1..][i] == events[i + 1];
      RunAsWritten(q, events[1..])
  }

  lemma StepAsWrittenKeepsSeatsInv(p: Page, status: StatusMap, e: Event)
    requires SeatsInv(p, status) && Fits(p, e)
    ensures SelectionOnPage(p)
    ensures SeatsInv(StepAsWritten(p, e), status)
  {
    InvSelectionOnPage(p, status);
    match e
    case ClickSeat(k) => ClickKeepsSeatsInv(p, status, k);
    case SelectCount(n) => ChangeCountKeepsSeatsInv(p, status, n);
  }

  /** On the page as written, every run of clicks and count changes keeps the
      selection valid and made of clickable seats, and every seat drawn and
      wired as the status map says; only the displayed total can go stale. */
  lemma {:induction false} RunAsWrittenKeepsSeatsInv(p: Page, status: StatusMap, events: seq<Event>)
    requires SeatsInv(p, status) && AllFit(p, events)
    ensures SelectionOnPage(p)
    ensures SeatsInv(RunAsWritten(p, events), status)
    decreases |events|
  {
    InvSelectionOnPage(p, status);
    if |events| > 0 {
      StepAsWrittenKeepsSeatsInv(p, status, events[0]);
      var q := StepAsWritten(p, events[0]);
      assert AllFit(q, events[1..]) by {
        assert forall i :: 0 <= i < |events| - 1 ==> events[1..][i] == events[i + 1];
      }
      RunAsWrittenKeepsSeatsInv(q, status, events[1..]);
    }
  }

  /** From load, whatever the user does on the page as written, the seats
      stay consistent with the status map and the selection. */
  lemma ReachableAsWritten(layout: seq<seq<string>>, status: StatusMap, events: seq<Event>)
    requires AllFit(Load(layout, status), events)
    ensures SeatsInv(RunAsWritten(Load(layout, status), events), status)
  {
    LoadEstablishesInv(layout, status);
    RunAsWrittenKeepsSeatsInv(Load(layout, status), status, events);
  }

  /** A seat that is not bookable does not react to clicks. */
  lemma UnbookableClickIgnored(p: Page, status: StatusMap, k: nat)
    requires SeatsInv(p, status) && k < |p.elements| && !Bookable(status, p.elements[k].id)
    ensures SelectionOnPage(p)
    ensures Click(p, k) == p
  {
    InvSelectionOnPage(p, status);
  }

  /** Clicking a free seat on and off again, with room left, restores the
      selection and shows the total it had before. */
  lemma ClickTwiceRestoresTotal(p: Page, status: StatusMap, k: nat)
    requires SeatsInv(p, status) && k < |p.elements| && p.elements[k].clickable
    requires p.elements[k].id !in p.state.selected && |p.state.selected| < p.state.maxSeats
    ensures SelectionOnPage(p) && SelectionOnPage(Click(p, k))
    ensures Click(Click(p, k), k).state == p.state
    ensures Click(Click(p, k), k).shown == Some(TotalOf(p.state.selected, p.elements))
  {
    InvSelectionOnPage(p, status);
    var q := Click(p, k);
    ToggleRoundTrip(p.state, p.elements[k].id);
    var r := Click(q, k);
    assert SameSeats(r.elements, p.elements);
    PriceTableDependsOnIdsAndPrices(r.elements, p.elements);
  }

  /** The price table reads only ids and prices. */
  lemma {:induction false} PriceTableDependsOnIdsAndPrices(a: seq<Element>, b: seq<Element>)
    requires SameSeats(a, b)
    ensures PriceTable(a) == PriceTable(b)
    decreases |a|
  {
    if |a| > 0 {
      PriceTableDependsOnIdsAndPrices(a[1..], b[1..]);
    }
  }
}

=== FILE: wrappers.dfy ===
/** Optional values, used where the page code reads `undefined`. */
module Wrappers {

  datatype Option<+T> = None | Some(value: T)
}
